=== FILE: README.md ===
# University form assistant: the deterministic core

A Dafny model of the deterministic layer of the university form assistant (`Ai_Api.py`). That
layer surrounds the calls to the external language model and has five parts:

- the **intent filter** (`validate_university_context`): a case-insensitive keyword test that
  runs before any model call;
- the **fence extractor** (`extract_json`): it pulls the JSON payload out of a Markdown code
  block in a model reply. The regular expression ```` ```(?:json)?(.*?)``` ```` with DOTALL is
  modelled as the leftmost search that `re.search` performs;
- the **merge verifier and repair** (`verify_preserved_categories`, plus the repair inside
  `generate_form`). Categories are compared by name only;
- the **conversation store** (`conversation_store`) and the two handlers that change it,
  `/chat` and `/generate`. Each handler is a function from the old store to the new store,
  paired with a tag naming the response;
- the logic around the model calls: conversation-id resolution and the fallback questions of
  `chat_with_ai`, error wrapping in `generate_form`, transcript rendering, key humanisation and
  the conversation-id format.

The model call is never modelled. Its outcome is a parameter: it raised with a message, or it
returned text, possibly empty. The JSON decoder is a function parameter. The random draw and
the clock that make up a conversation id are a parameter too.

Modules, leaf to root:

- `Common`: `Option` and `Result`.
- `Text`: the Python string built-ins used, namely `isspace`, `strip`, ASCII `lower`, the `in`
  substring test and `str(n)`. `Strip`, `Contains` and `str(n)` have specifications
  independent of their code: the trimmed slice, an index where the needle occurs, and the read
  back value. `Lower` and `IsSpace` are plain definitions. It also
  defines ASCII `Upper`, which the source never calls; it serves only to state that the filter
  ignores case (`IntentFilter.ValidateCaseInsensitive`).
- `IntentFilter`.
- `Extraction`.
- `Forms`: categories, verification, repair, and reading the existing categories.
- `History`: entries, the store, transcripts.
- `Dialogue`: conversation ids and `chat_with_ai`.
- `Generation`: `generate_form`, humanised keys, the context description.
- `Routes`: the `/chat` and `/generate` handlers.

Where the code does less than its own comments and messages suggest, or behaves in a way easy
to miss, the model follows the code:

- The docstring of `generate_form` (Ai_Api.py:137) promises to preserve existing form
  elements, and the instruction sent to the model (Ai_Api.py:197) asks for them exactly as
  provided. Yet `verify_preserved_categories` (Ai_Api.py:277-284) compares names only. When
  every existing name is reused by some generated category, verification passes and the
  model's edited versions are kept (`Forms.RepairExamples`). When some existing name is
  missing, the repair keeps every existing category and drops each generated category that
  reuses an existing name, edited or not (`Forms.PartialReuseDropsEdits`).
- The catch-all at Ai_Api.py:126-131 masks every failure inside `chat_with_ai`, but not this
  one: if the model returns a JSON object without a `question` key, `chat_with_ai` returns it
  with only `conversation_id` set. `/chat` then raises `KeyError('question')` at Ai_Api.py:336,
  after it has already created the empty list for the id (`Routes.ChatMissingQuestion`).
- A JSON reply that is not an object is returned unchanged by `generate_form` when there are no
  existing categories. When there are some, it fails on `.get` (Ai_Api.py:256).

## Model

| member | source | states |
|---|---|---|
| Text.Strip | Ai_Api.py:46-47 | `strip()` yields the slice of the text that starts where leading whitespace ends; only whitespace follows it, and it neither starts nor ends with whitespace (Python's full `isspace` set) |
| Text.StripIdempotent | Ai_Api.py:46-47 | stripping an already stripped text changes nothing |
| Text.Contains | Ai_Api.py:30 | the scanning substring test is true exactly when the keyword occurs at some index of the text |
| Text.LowerAbsorbs | Ai_Api.py:27 | lower-casing is idempotent and undoes any earlier upper-casing |
| Text.DecimalRoundTrip | Ai_Api.py:296 | the decimal digits `str(n)` writes read back as `n` |
| IntentFilter.AnyOccurs | Ai_Api.py:30 | `any(k in text for k in keywords)` is true exactly when some keyword of the list occurs in the text |
| IntentFilter.ValidateSpec | Ai_Api.py:21-39 | a prompt is accepted exactly when no disallowed keyword occurs in its lower-cased form, or some university keyword does |
| IntentFilter.ValidateCaseInsensitive | Ai_Api.py:27-36 | the decision depends only on the lower-cased prompt: prompts equal up to case, and a prompt and its upper-cased form, get the same decision |
| IntentFilter.Validate | Ai_Api.py:11-39 | `validate_university_context`: lower-case the prompt; when a disallowed keyword occurs, accept only if a university keyword also occurs, otherwise accept. Its meaning is stated by `ValidateSpec` |
| IntentFilter.ValidateAcceptsUnflagged | Ai_Api.py:30-39 | a prompt in which no disallowed keyword occurs is always accepted |
| IntentFilter.ValidateAcceptsAcademic | Ai_Api.py:30-36 | a prompt containing a university keyword is always accepted |
| IntentFilter.ValidateRejectsBomb | Ai_Api.py:21-36 | "how to build a bomb" is rejected |
| IntentFilter.ValidateAcceptsUniversityPrompts | Ai_Api.py:30-39 | a disallowed word next to "admission" is accepted, and so is an ordinary question about a faculty |
| IntentFilter.ValidateRejectsEcomerce | Ai_Api.py:23 | the literal keyword "ecomerce" rejects a prompt that contains it and no university keyword |
| IntentFilter.ValidateAcceptsEcommerce | Ai_Api.py:23 | the usual spelling "ecommerce" matches no disallowed keyword and is accepted |
| Extraction.NextFence | Ai_Api.py:44 | the lazy group stops at the nearest fence at or after a position; no fence in between, and None only when no fence follows |
| Extraction.MatchAt | Ai_Api.py:44 | an attempt anchored at an index succeeds exactly when a fence starts there and another fence follows it; the content starts after a `json` tag when one follows, and ends at the nearest closing fence |
| Extraction.Search | Ai_Api.py:44 | `re.search` returns the leftmost index at which the pattern matches, and fails only when it matches nowhere |
| Extraction.ExtractJson | Ai_Api.py:41-47 | the result never starts or ends with whitespace |
| Extraction.SearchSucceedsIffPair | Ai_Api.py:44-45 | the pattern matches exactly when the text holds an opening fence with a later closing fence |
| Extraction.SearchStartsAtFirstFence | Ai_Api.py:44 | a match starts at the first fence of the text |
| Extraction.ExtractJsonUnfenced | Ai_Api.py:47 | without a fence pair the whole text is stripped |
| Extraction.ExtractJsonFenced | Ai_Api.py:44-46 | with a fence pair the result is the stripped text between the first fence (after an optional `json` tag) and the nearest closing fence after it |
| Extraction.ExtractJsonFenceFree | Ai_Api.py:44-46 | in the fenced case the result contains no triple backtick |
| Extraction.ExtractJsonIdempotent | Ai_Api.py:41-47 | extracting twice gives the result of extracting once |
| Extraction.ExtractJsonTaggedExample | Ai_Api.py:44-46 | a reply fenced with a `json` tag yields `{"a":1}` |
| Extraction.ExtractJsonBareExample | Ai_Api.py:47 | an unfenced reply `{"a":1}` is returned as it is |
| Forms.Verify | Ai_Api.py:269-284 | verification succeeds exactly when every existing category that has a name key is matched by name by some generated category |
| Forms.VerifyReflexive | Ai_Api.py:274-284 | every category list preserves itself |
| Forms.VerifyVacuous | Ai_Api.py:274-284 | with no existing category carrying a name key, verification succeeds whatever was generated |
| Forms.VerifyOnlyNames | Ai_Api.py:277-284 | the verdict depends on the generated list only through its set of name keys, so order, duplicates and question contents are ignored |
| Forms.NameList | Ai_Api.py:260 | `[ec.get("category_name") for ec in existing_categories]`: one name per existing category, in order, an absent key read as None |
| Forms.NameListMembership | Ai_Api.py:260 | a name is in the list of existing names exactly when some existing category carries it, an absent key counting as None |
| Forms.Newcomers | Ai_Api.py:258-261 | the comprehension keeps, in order and with their multiplicities, exactly the generated categories whose name is not among the existing names |
| Forms.Repair | Ai_Api.py:258-261 | the repaired list is the existing categories unchanged and in order, then a subsequence of the generated ones holding each category exactly as often as it was generated when its name collides with no existing name, and never otherwise; verification holds afterwards |
| Forms.RepairAddsOnlyNewNames | Ai_Api.py:259-260 | no appended category shares a name with an existing one, so an unnamed existing category drops every unnamed generated one |
| Forms.Preserve | Ai_Api.py:254-263 | the decoded form is returned unchanged when verification passes; otherwise only its categories change, to the repaired list; either way verification holds for the result and every other key is kept |
| Forms.PreserveIdempotent | Ai_Api.py:254-263 | preserving a preserved form changes nothing |
| Forms.ExistingCategories | Ai_Api.py:168-185 | a falsy current form, and any truthy value that is neither a string nor an object, has no existing categories; an object contributes its "categories" list; a non-empty string contributes the categories of the object it decodes to, and nothing when it does not decode to an object |
| Forms.PartialReuseDropsEdits | Ai_Api.py:254-261 | when every generated category reuses an existing name but some named existing category is matched by none, verification fails and the repaired form holds exactly the existing categories: every edited version is dropped |
| Forms.RepairExamples | Ai_Api.py:254-261 | Personal Info then Academic Info after a repair; a generated Personal Info is dropped by the repair; a name collision passes verification, so the edited version is kept |
| History.RenderDialogueAppend | Ai_Api.py:60-65 | the dialogue transcript of a concatenation is the concatenation of the transcripts |
| History.RenderGenerationAppend | Ai_Api.py:147-155 | the generation transcript of a concatenation is the concatenation of the transcripts |
| History.RenderDialogue | Ai_Api.py:60-65 | the dialogue transcript: a `User:` and an `Assistant:` line per exchange, in order; snapshots add nothing. Its laws are `RenderDialogueAppend` and `SnapshotInvisible` |
| History.RenderGeneration | Ai_Api.py:147-155 | the generation transcript: as the dialogue one, plus the saved-form marker after an exchange with a `form_state`. Its laws are `RenderGenerationAppend`, `SnapshotInvisible` and `TranscriptsAgreeWithoutFormState` |
| History.SnapshotInvisible | Ai_Api.py:149-155 | an entry recorded by `/generate` adds nothing to either transcript |
| History.TranscriptsAgreeWithoutFormState | Ai_Api.py:60-65 | without `form_state` entries the generation transcript equals the dialogue transcript; the saved-form marker is the only difference |
| History.DialogueContext | Ai_Api.py:59-70 | both branches of the context builder agree: the history's transcript followed by the new utterance as a last `User:` line |
| Dialogue.ConversationIdRoundTrip | Ai_Api.py:294-296 | an id is `conv_`, five digits, `_` and the seconds, and both numbers can be read back from it |
| Dialogue.ConversationIdInjective | Ai_Api.py:294-296 | different draws or different seconds give different ids |
| Dialogue.ConversationId | Ai_Api.py:294-296 | `conv_`, five digits, `_`, then the seconds; both numbers read back by `ParseConversationId` |
| Dialogue.ResolveId | Ai_Api.py:114-117 | the resolved id is the supplied one when it is truthy, a fresh id otherwise, and never empty |
| Dialogue.ChatWithAi | Ai_Api.py:108-131 | the reply always carries the resolved, non-empty id; a raising call, an undecodable reply and a JSON value that is not an object all yield the line-129 question; an empty reply yields the line-123 question; a question is missing only when the model's JSON object had none |
| Dialogue.ChatWithAiPassesQuestion | Ai_Api.py:108-119 | a JSON object reply has its question passed on and its own id overwritten by the resolved one |
| Generation.GenerationError | Ai_Api.py:267 | the message is the prefix followed by the cause, which can be read back from it |
| Generation.GenerationErrorInjective | Ai_Api.py:267 | two failures with the same message had the same cause |
| Generation.GenerateForm | Ai_Api.py:246-267 | a raising call, an empty reply and a decoder failure each fail with `Error generating form: ` and that cause; a non-object JSON value is returned as it is when there are no existing categories and fails with the `.get` AttributeError message otherwise; every failure is a wrapped error; a decoded object passes verification against the existing categories |
| Generation.GenerateFormKeepsReply | Ai_Api.py:248-263 | a decoded object is returned with its other keys intact: unchanged when verification passes, with the repaired categories otherwise |
| Generation.HumanizeSpec | Ai_Api.py:161 | character by character, a humanised key has a space for each underscore, its first character upper-cased and the rest lower-cased |
| Generation.HumanizeIdempotent | Ai_Api.py:161 | humanising is idempotent and leaves no underscore |
| Generation.Humanize | Ai_Api.py:161 | `key.replace('_', ' ').capitalize()`: same length as the key; character by character as `HumanizeSpec` states |
| Generation.MappingLinesAppend | Ai_Api.py:158-162 | the lines of a mapping context are the lines of its parts, in order |
| Generation.SnapshotKeepsDescription | Ai_Api.py:144-164 | recording a generated form never changes the context description of a later generation |
| Generation.ContextDescription | Ai_Api.py:144-164 | the header, then the generation transcript only when the id is truthy and known, then the context: the string with a newline, or one humanised `Key: value` line per mapping entry |
| Routes.ExchangeEntry | Ai_Api.py:334-341 | the recorded exchange carries the prompt and the question, and has a `form_state` exactly when the current form is truthy |
| Routes.Chat | Ai_Api.py:298-347 | a missing prompt is a bad request and a rejected prompt gets the redirect question, both leaving the store untouched; otherwise only the resolved id's list can change, and no other id is added |
| Routes.Converse | Ai_Api.py:318-345 | after an accepted prompt only the resolved id's list can change, and that id is the only one that can be added |
| Routes.ChatAppendsOneExchange | Ai_Api.py:320-345 | an accepted prompt with an answered question appends exactly that one exchange to the resolved id's list, created empty when absent, and leaves every other id unchanged |
| Routes.ChatRecordsFallback | Ai_Api.py:126-131 | when the model call raises, the fallback question is answered and recorded |
| Routes.ChatMissingQuestion | Ai_Api.py:327-337 | a model object without a question fails the request with `'question'`, but the id's list has been created |
| Routes.ChatTwoTurns | Ai_Api.py:329-343 | two answered turns on a new id leave exactly those two exchanges under it, in order |
| Routes.Generate | Ai_Api.py:349-381 | `/generate` never adds or removes an id; a missing context is a bad request and an off-topic string context gets the error and suggestion, both leaving the store untouched; an accepted context answers with the generated document, or fails with its wrapped error leaving the store untouched; the store changes only when the id is supplied and known, by one snapshot of the returned document |
| Routes.GenerateRecordsSnapshot | Ai_Api.py:370-377 | a successful generation on a known id appends exactly one snapshot of the returned document |
| Routes.MappingContextBypassesFilter | Ai_Api.py:363 | a mapping context is never rejected by the intent filter |
| Routes.GenerateKeepsDescriptions | Ai_Api.py:372-377 | what `/generate` records never changes the context description of any later call |

## Left out

- HTTP wiring is not modelled: Flask, `render_template`, `request.get_json`, `jsonify` and the status codes. Each handler returns a response tag (bad request, redirect, answer, server error) in their place.
- The language model is not modelled: `genai.configure` and `generate_content`. Only the outcome of the call is a parameter.
- `json.loads` is an abstract function parameter and `json.dumps` is not modelled. Categories keep their name key; every other field is opaque text.
- `random.randint` and `time.time` are inputs of the id format. The clock is taken as non-negative.
- The wording of the prompts sent to the model is not modelled (Ai_Api.py:93-104 and 188-244). Neither is the current-form summary at Ai_Api.py:72-91 or the `EXISTING FORM STRUCTURE` block at Ai_Api.py:180-185: they are prompt text only. The `question_type`/`answer_type` rules are text sent to the model and are never enforced by code.
- Non-string field values are not modelled; the datatypes keep strings to keep the model small. What the code does with them: a non-string prompt makes `.lower()` raise inside the handler's `try`, giving a server error (Ai_Api.py:310-312, 346-347); a JSON array or object used as a conversation id or category name is unhashable, so the membership test or set building raises `TypeError` (Ai_Api.py:320 in `/chat`, answered with a server error at 346-347; Ai_Api.py:147 and 277, 280-281 inside `generate_form`, wrapped as a generation error at 266-267), while a number, boolean or null is compared by Python equality like any other name; a category that is not an object makes the repair fail: `"category_name" in cat` raises for a number or null (Ai_Api.py:277, 280), and `.get` raises `AttributeError` for any non-object (Ai_Api.py:259-260, 277, 281), which ends as a wrapped generation error (Ai_Api.py:266-267); a non-string question is stored and returned unchanged; a context that is neither a string nor a mapping skips the filter, as a mapping does (Ai_Api.py:363), and is rendered with `str` (Ai_Api.py:164); a "categories" value that is not a list is iterated or concatenated as Python does for its type.
- `lower` and `capitalize` are modelled for ASCII letters only, not the Unicode case mapping.
- Concurrent access to the global store is not modelled. Each handler is one atomic step.
- Dialogue.ChatWithAi: any other keys of the model's JSON object are passed through to the client; the model keeps only the question.
- History.DialogueContext: covers the conversation part of the dialogue prompt, not the prompt around it.

=== FILE: common.dfy ===
/** Shared vocabulary: optional values and outcomes that carry an error message. */
module Common {

  /** A value that may be missing (a Python `None`, or a dictionary key that is absent). */
  datatype Option<T> = None | Some(value: T) {

    /** The value, or `default` when there is none (Python's `d.get(key, default)`). */
    function GetOr(default: T): T {
      if Some? then value else default
    }
  }

  /** The outcome of a step that raises an exception on failure; `message` is `str(e)`. */
  datatype Result<T> = Ok(value: T) | Err(message: string)
}

=== FILE: dialogue.dfy ===
/** The follow-up dialogue engine (`chat_with_ai`) and conversation ids
    (`generate_conversation_id`). The language model is not modelled: its outcome and the JSON
    decoder are parameters. */
module Dialogue {
  import opened Common
  import opened Text
  import opened Extraction

  /** The value `random.randint(10000, 99999)` can return. */
  type RandomPart = r: int | 10000 <= r <= 99999 witness 10000

  /** The inputs of one id generation: a random draw and `int(time.time())`. */
  datatype IdSeed = IdSeed(random: RandomPart, seconds: nat)

  /** `generate_conversation_id()`: `conv_<random>_<seconds>`. */
  function ConversationId(seed: IdSeed): (id: string)
    ensures |id| >= 12 && id[..5] == "conv_" && id[10] == '_'
    ensures AllDigits(id[5..10]) && AllDigits(id[11..])
  {
    FiveDigits(seed.random);
    "conv_" + NatToString(seed.random) + "_" + NatToString(seed.seconds)
  }

  /** Reads the two numbers back out of a conversation id; the inverse of `ConversationId`. */
  function ParseConversationId(s: string): Option<(nat, nat)> {
    if |s| >= 12 && s[..5] == "conv_" && s[10] == '_' && AllDigits(s[5..10]) && AllDigits(s[11..]) then
      Some((DecimalValue(s[5..10]), DecimalValue(s[11..])))
    else
      None
  }

  /** An id is `conv_`, five digits, `_` and the seconds, and both numbers can be read back. */
  lemma ConversationIdRoundTrip(seed: IdSeed)
    ensures var id := ConversationId(seed);
      && |id| >= 12 && id[..5] == "conv_" && id[10] == '_'
      && ParseConversationId(id) == Some((seed.random as nat, seed.seconds))
  {
    var r := NatToString(seed.random);
    var t := NatToString(seed.seconds);
    var id := ConversationId(seed);
    FiveDigits(seed.random);
    assert id[..5] == "conv_";
    assert id[5..10] == r;
    assert id[11..] == t;
    DecimalRoundTrip(seed.random);
    DecimalRoundTrip(seed.seconds);
  }

  /** Different draws or different seconds give different ids. */
  lemma ConversationIdInjective(s1: IdSeed, s2: IdSeed)
    requires ConversationId(s1) == ConversationId(s2)
    ensures s1 == s2
  {
    ConversationIdRoundTrip(s1);
    ConversationIdRoundTrip(s2);
  }

  /** Python truthiness of a `conversation_id` field: present and non-empty. */
  predicate Supplied(id: Option<string>) {
    id.Some? && id.value != ""
  }

  /** `conversation_id or generate_conversation_id()`. */
  function ResolveId(id: Option<string>, seed: IdSeed): (r: string)
    ensures r != ""
    ensures Supplied(id) ==> r == id.value
    ensures !Supplied(id) ==> r == ConversationId(seed)
  {
    if Supplied(id) then id.value else ConversationId(seed)
  }

  /** How the call to the language model ended: it raised (`message` is `str(e)`), or it
      returned `response.text`, which may be empty. */
  datatype ModelOutcome = Raised(message: string) | Returned(text: string)

  /** What decoding the model's JSON reply produced: an object, with its "question" and
      "conversation_id" keys when present, or some other JSON value. */
  datatype ReplyDoc = ReplyObject(question: Option<string>, modelId: Option<string>) | ReplyOther

  /** The reply of `chat_with_ai`: its "question" key (missing only when the model left it out)
      and its "conversation_id". */
  datatype ChatReply = ChatReply(question: Option<string>, conversationId: string)

  const EmptyReplyQuestion :=
    "Could you provide more details about what specific information you need to collect with this form?"
  const FailureQuestion := "What specific details would you like to include in this university form?"

  /** `chat_with_ai`: never fails. An empty reply yields one fixed question, and any exception
      (the call raising, undecodable JSON, or a JSON value that is not an object) another; the
      conversation id is always the resolved one, whatever id the model's JSON carried. */
  function ChatWithAi(id: Option<string>, outcome: ModelOutcome, parse: string -> Result<ReplyDoc>, seed: IdSeed): (r: ChatReply)
    ensures r.conversationId == ResolveId(id, seed) && r.conversationId != ""
    ensures outcome.Raised? ==> r.question == Some(FailureQuestion)
    ensures outcome == Returned("") ==> r.question == Some(EmptyReplyQuestion)
    ensures r.question.None? ==>
      && outcome.Returned? && outcome.text != ""
      && var d := parse(ExtractJson(outcome.text)); d.Ok? && d.value.ReplyObject? && d.value.question.None?
    ensures outcome.Returned? && outcome.text != "" ==>
      var d := parse(ExtractJson(outcome.text)); !(d.Ok? && d.value.ReplyObject?) ==> r.question == Some(FailureQuestion)
  {
    var resolved := ResolveId(id, seed);
    match outcome
    case Raised(_) => ChatReply(Some(FailureQuestion), resolved)
    case Returned(text) =>
      if text == "" then
        ChatReply(Some(EmptyReplyQuestion), resolved)
      else (
        match parse(ExtractJson(text))
        case Ok(ReplyObject(q, _)) => ChatReply(q, resolved)
        case Ok(ReplyOther) => ChatReply(Some(FailureQuestion), resolved)
        case Err(_) => ChatReply(Some(FailureQuestion), resolved)
      )
  }

  /** When the model answers with a JSON object, its question is passed on and its own
      "conversation_id" is overwritten by the resolved id. */
  lemma ChatWithAiPassesQuestion(id: Option<string>, text: string, parse: string -> Result<ReplyDoc>, seed: IdSeed,
                                 q: Option<string>, modelId: Option<string>)
    requires text != "" && parse(ExtractJson(text)) == Ok(ReplyObject(q, modelId))
    ensures ChatWithAi(id, Returned(text), parse, seed) == ChatReply(q, ResolveId(id, seed))
  {
  }
}

=== FILE: extraction.dfy ===
/** The fence extractor (`extract_json`): the payload of a Markdown code block in a model
    reply. The regular expression ```(?:json)?(.*?)``` with DOTALL is modelled as the search
    Python's `re.search` performs: the leftmost position at which an opening fence has a later
    closing fence, an immediately following literal `json` tag skipped when possible (the tag
    is case-sensitive), and the content running lazily to the nearest closing fence. */
module Extraction {
  import opened Common
  import opened Text

  /** Three backticks start at index `i` of `t`. */
  predicate FenceAt(t: string, i: int) {
    0 <= i && i + 3 <= |t| && t[i] == '`' && t[i + 1] == '`' && t[i + 2] == '`'
  }

  /** The literal tag `json` starts at index `i` of `t`. */
  predicate JsonTagAt(t: string, i: int) {
    0 <= i && i + 4 <= |t| && t[i..i + 4] == "json"
  }

  /** The nearest fence at or after index `from` (what the lazy `(.*?)` stops at). */
  function NextFence(t: string, from: nat): (r: Option<nat>)
    ensures r.Some? ==> from <= r.value && FenceAt(t, r.value)
    ensures r.Some? ==> forall k :: from <= k < r.value ==> !FenceAt(t, k)
    ensures r.None? ==> forall k :: from <= k ==> !FenceAt(t, k)
    decreases |t| - from
  {
    if from + 3 > |t| then None
    else if FenceAt(t, from) then Some(from)
    else NextFence(t, from + 1)
  }

  /** The bounds of the captured group: `t[lo..hi]`. */
  datatype Span = Span(lo: nat, hi: nat)

  /** A successful search: the opening fence's index and the captured group. */
  datatype Match = Match(start: nat, group: Span)

  /** Where the captured content starts after an opening fence at `i`. */
  function ContentStart(t: string, i: nat): nat {
    if JsonTagAt(t, i + 3) then i + 7 else i + 3
  }

  /** The content that starts at `lo` ends at the fence at `hi`, the nearest one from `lo`. */
  ghost predicate IsClosingFence(t: string, lo: nat, hi: nat) {
    lo <= hi && FenceAt(t, hi) && forall k :: lo <= k < hi ==> !FenceAt(t, k)
  }

  /** An attempt of the pattern anchored at index `i`, with the backtracking the regular
      expression engine performs: the optional `json` tag is taken first, and dropped again
      when no closing fence follows it. */
  function MatchAt(t: string, i: nat): (r: Option<Span>)
    ensures r.Some? <==> FenceAt(t, i) && NextFence(t, i + 3).Some?
    ensures r.Some? ==> r.value.lo == ContentStart(t, i) && IsClosingFence(t, r.value.lo, r.value.hi)
  {
    if !FenceAt(t, i) then
      None
    else
      TagHidesFences(t, i + 3);
      if JsonTagAt(t, i + 3) && NextFence(t, i + 7).Some? then
        Some(Span(i + 7, NextFence(t, i + 7).value))
      else match NextFence(t, i + 3)
        case Some(j) => Some(Span(i + 3, j))
        case None => None
  }

  /** No fence starts inside a `json` tag, so the nearest fence after the tag is the nearest
      fence after its first letter. */
  lemma TagHidesFences(t: string, p: nat)
    ensures JsonTagAt(t, p) ==> forall k :: p <= k < p + 4 ==> !FenceAt(t, k)
    ensures JsonTagAt(t, p) ==> NextFence(t, p) == NextFence(t, p + 4)
  {
    if JsonTagAt(t, p) {
      assert t[p] == 'j' && t[p + 1] == 's' && t[p + 2] == 'o' && t[p + 3] == 'n' by {
        assert t[p..p + 4] == "json";
      }
      assert NextFence(t, p) == NextFence(t, p + 1) == NextFence(t, p + 2) == NextFence(t, p + 3);
    }
  }

  /** `re.search`: the leftmost index from `from` on at which the pattern matches. */
  function Search(t: string, from: nat): (r: Option<Match>)
    ensures r.Some? ==> from <= r.value.start && MatchAt(t, r.value.start) == Some(r.value.group)
    ensures r.Some? ==> forall k :: from <= k < r.value.start ==> MatchAt(t, k).None?
    ensures r.None? ==> forall k :: from <= k ==> MatchAt(t, k).None?
    decreases |t| - from
  {
    if from + 3 > |t| then
      None
    else match MatchAt(t, from)
      case Some(g) => Some(Match(from, g))
      case None => Search(t, from + 1)
  }

  /** `extract_json(text)`: the stripped captured group when the pattern matches, otherwise the
      whole text stripped. The result never starts or ends with whitespace. */
  function ExtractJson(t: string): (r: string)
    ensures Trimmed(r)
  {
    match Search(t, 0)
    case Some(m) => Strip(t[m.group.lo..m.group.hi])
    case None => Strip(t)
  }

  /** The text holds an opening fence followed, three or more characters on, by a closing one. */
  ghost predicate HasFencePair(t: string) {
    exists i, j :: FenceAt(t, i) && FenceAt(t, j) && i + 3 <= j
  }

  /** No fence occurs anywhere in `s`. */
  ghost predicate FenceFree(s: string) {
    forall k :: !FenceAt(s, k)
  }

  /** A fence at or after `from` is found, or an earlier one is. */
  lemma NextFenceFinds(t: string, from: nat, j: nat)
    requires from <= j && FenceAt(t, j)
    ensures NextFence(t, from).Some? && NextFence(t, from).value <= j
  {
  }

  /** The search succeeds exactly when the text holds a fence pair. */
  lemma SearchSucceedsIffPair(t: string)
    ensures Search(t, 0).Some? <==> HasFencePair(t)
  {
    if HasFencePair(t) {
      var i, j :| FenceAt(t, i) && FenceAt(t, j) && i + 3 <= j;
      NextFenceFinds(t, i + 3, j);
      assert MatchAt(t, i).Some?;
    }
    if Search(t, 0).Some? {
      var m := Search(t, 0).value;
      var j := NextFence(t, m.start + 3).value;
      assert FenceAt(t, m.start) && FenceAt(t, j) && m.start + 3 <= j;
    }
  }

  /** A successful search matches at the first fence of the text. */
  lemma SearchStartsAtFirstFence(t: string)
    requires Search(t, 0).Some?
    ensures FenceAt(t, Search(t, 0).value.start)
    ensures forall k :: 0 <= k < Search(t, 0).value.start ==> !FenceAt(t, k)
  {
    var m := Search(t, 0).value;
    var j := NextFence(t, m.start + 3).value;
    forall k | 0 <= k < m.start
      ensures !FenceAt(t, k)
    {
      NextFenceFinds(t, k + 3, j);
      assert MatchAt(t, k).None?;
    }
  }

  /** Without a fence pair the whole text is stripped. */
  lemma {:induction false} ExtractJsonUnfenced(t: string)
    requires !HasFencePair(t)
    ensures ExtractJson(t) == Strip(t)
  {
    SearchSucceedsIffPair(t);
  }

  /** With a fence pair the result is the stripped text between the first fence of the text
      (and an immediately following `json` tag) and the nearest closing fence after it. */
  lemma {:induction false} ExtractJsonFenced(t: string)
    requires HasFencePair(t)
    ensures exists i: nat, j: nat ::
      && FenceAt(t, i) && (forall k :: 0 <= k < i ==> !FenceAt(t, k))
      && IsClosingFence(t, ContentStart(t, i), j)
      && ExtractJson(t) == Strip(t[ContentStart(t, i)..j])
  {
    SearchSucceedsIffPair(t);
    SearchStartsAtFirstFence(t);
    var m := Search(t, 0).value;
    assert FenceAt(t, m.start) && IsClosingFence(t, ContentStart(t, m.start), m.group.hi);
  }

  /** A fence inside a slice is a fence of the whole text. */
  lemma FenceInSlice(t: string, lo: nat, hi: nat, k: int)
    requires lo <= hi <= |t| && FenceAt(t[lo..hi], k)
    ensures FenceAt(t, lo + k) && lo + k + 3 <= hi
  {
    assert t[lo..hi][k] == t[lo + k];
    assert t[lo..hi][k + 1] == t[lo + k + 1];
    assert t[lo..hi][k + 2] == t[lo + k + 2];
  }

  /** Stripping a slice leaves a slice: the stripped text sits at `lo + LeadingSpaces` in `t`. */
  lemma StripOfSlice(t: string, lo: nat, hi: nat)
    requires lo <= hi <= |t|
    ensures var a := lo + LeadingSpaces(t[lo..hi]); var r := Strip(t[lo..hi]);
      a + |r| <= hi && r == t[a..a + |r|]
  {
    var u := t[lo..hi];
    SliceOfSlice(t, lo, hi, LeadingSpaces(u), |Strip(u)|);
  }

  /** A slice of a slice is a slice of the whole. */
  lemma SliceOfSlice(t: string, lo: nat, hi: nat, a: nat, n: nat)
    requires lo <= hi <= |t| && a + n <= hi - lo
    ensures t[lo..hi][a..a + n] == t[lo + a..lo + a + n]
  {
    var inner := t[lo..hi][a..a + n];
    forall k | 0 <= k < n
      ensures inner[k] == t[lo + a + k]
    {
      assert inner[k] == t[lo..hi][a + k];
    }
  }


  /** A slice lying between a content start and its closing fence holds no fence. */
  lemma NoFenceBeforeClosing(t: string, lo: nat, hi: nat, a: nat, r: string)
    requires IsClosingFence(t, lo, hi)
    requires lo <= a && a + |r| <= hi && r == t[a..a + |r|]
    ensures FenceFree(r)
  {
    forall k
      ensures !FenceAt(r, k)
    {
      if 0 <= k && k + 3 <= |r| {
        assert !FenceAt(t, a + k);
        assert r[k] == t[a + k] && r[k + 1] == t[a + k + 1] && r[k + 2] == t[a + k + 2];
      }
    }
  }

  /** In the fenced case the payload contains no ``` sequence. */
  lemma {:induction false} ExtractJsonFenceFree(t: string)
    requires HasFencePair(t)
    ensures FenceFree(ExtractJson(t))
  {
    SearchSucceedsIffPair(t);
    var m := Search(t, 0).value;
    var lo, hi := m.group.lo, m.group.hi;
    assert IsClosingFence(t, lo, hi);
    assert ExtractJson(t) == Strip(t[lo..hi]);
    StripOfSlice(t, lo, hi);
    NoFenceBeforeClosing(t, lo, hi, lo + LeadingSpaces(t[lo..hi]), ExtractJson(t));
  }

  /** A slice of a text without a fence pair has none either. */
  lemma NoPairInSlice(t: string, a: nat, b: nat)
    requires a <= b <= |t| && !HasFencePair(t)
    ensures !HasFencePair(t[a..b])
  {
    forall i, j | FenceAt(t[a..b], i) && FenceAt(t[a..b], j)
      ensures j < i + 3
    {
      FenceInSlice(t, a, b, i);
      FenceInSlice(t, a, b, j);
    }
  }

  /** Extracting twice gives the result of extracting once. */
  lemma {:induction false} ExtractJsonIdempotent(t: string)
    ensures ExtractJson(ExtractJson(t)) == ExtractJson(t)
  {
    var r := ExtractJson(t);
    if HasFencePair(t) {
      ExtractJsonFenceFree(t);
      assert !HasFencePair(r);
    } else {
      ExtractJsonUnfenced(t);
      var a := LeadingSpaces(t);
      assert r == t[a..a + |r|];
      NoPairInSlice(t, a, a + |r|);
    }
    ExtractJsonUnfenced(r);
    StripTrimmed(r);
  }

  /** A small JSON reply wrapped in a block tagged `json` comes out without fence, tag or newlines. */
  lemma ExtractJsonTaggedExample()
    ensures ExtractJson("```json\n{\"a\":1}\n```") == "{\"a\":1}"
  {
    var fenced := "```json\n{\"a\":1}\n```";
    assert FenceAt(fenced, 0) && JsonTagAt(fenced, 3);
    assert FenceAt(fenced, 16);
    assert forall k :: 7 <= k < 16 ==> !FenceAt(fenced, k);
    assert NextFence(fenced, 7) == Some(16);
    assert MatchAt(fenced, 0) == Some(Span(7, 16));
    assert Search(fenced, 0) == Some(Match(0, Span(7, 16)));
    StripExample();
  }

  lemma StripExample()
    ensures Strip("```json\n{\"a\":1}\n```"[7..16]) == "{\"a\":1}"
  {
    var inner := "```json\n{\"a\":1}\n```"[7..16];
    assert inner == "\n{\"a\":1}\n";
    assert LeadingSpaces(inner) == 1;
    assert TrailingSpaces(inner[1..]) == 1;
  }

  /** The same reply without a fence is returned as it is. */
  lemma ExtractJsonBareExample()
    ensures ExtractJson("{\"a\":1}") == "{\"a\":1}"
  {
    var bare := "{\"a\":1}";
    assert forall k :: !FenceAt(bare, k);
    ExtractJsonUnfenced(bare);
    StripTrimmed(bare);
  }
}

=== FILE: forms.dfy ===
/** Form drafts and the merge verifier: `verify_preserved_categories`, the repair that
    `generate_form` performs when it fails, and how the existing categories are read from the
    caller's current form. Categories are compared by name only. */
module Forms {
  import opened Common

  /** The JSON value under a category's "category_name" key. */
  datatype NameValue = NullName | TextName(text: string)

  /** A category object. `name` is None when the "category_name" key is absent; `rest` stands for
      every other field of the object (its questions among them) as opaque JSON text. */
  datatype Category = Category(name: Option<NameValue>, rest: string)

  /** A decoded form object: its "categories" list when that key is present, and every other
      top-level key (form_name, form_description, ...) with its value as opaque JSON text. */
  datatype Form = Form(categories: Option<seq<Category>>, others: map<string, string>)

  /** What decoding a form document produced: an object, or another JSON value, named by its
      Python type as it appears in error messages ("list", "str", ...). */
  datatype FormDoc = FormObject(form: Form) | NonObject(typeName: string)

  /** The `current_form` field of a request: absent or null, a JSON string holding a form, an
      object, or any other JSON value (only its truthiness matters). */
  datatype FormValue = NoForm | FormText(text: string) | FormObjectValue(form: Form) | OtherValue(truthy: bool)

  /** Python truthiness of a `current_form` value. */
  predicate Truthy(v: FormValue) {
    match v
    case NoForm => false
    case FormText(s) => s != ""
    case FormObjectValue(f) => f.categories.Some? || f.others != map[]
    case OtherValue(b) => b
  }

  /** `cat.get("category_name")`: an absent key reads as None, the same value as a JSON null. */
  function NameOf(c: Category): NameValue {
    c.name.GetOr(NullName)
  }

  /** `result.get("categories", [])`. */
  function CategoriesOf(f: Form): seq<Category> {
    f.categories.GetOr([])
  }

  /** The property the verifier is meant to decide: every existing category that has a name key
      is matched, by the value of that key, by some generated category that has one. */
  ghost predicate NamesPreserved(existing: seq<Category>, generated: seq<Category>) {
    forall e :: e in existing && e.name.Some? ==> exists g :: g in generated && g.name == e.name
  }

  /** `verify_preserved_categories`: the set of existing names against the set of generated names
      that belong to it, compared by size. It decides `NamesPreserved`, so order, duplicates and
      everything but the names are ignored. */
  function Verify(existing: seq<Category>, generated: seq<Category>): (ok: bool)
    ensures ok <==> NamesPreserved(existing, generated)
  {
    if |existing| == 0 then
      true
    else
      var existingNames := ExistingNames(existing);
      var foundNames := FoundNames(existingNames, generated);
      FoundNamesDecide(existing, generated);
      |foundNames| == |existingNames|
  }

  /** `{cat.get("category_name") for cat in existing_categories if "category_name" in cat}`. */
  function ExistingNames(existing: seq<Category>): set<NameValue> {
    set c | c in existing && c.name.Some? :: c.name.value
  }

  /** The generated names that belong to `names`, as a set. */
  function FoundNames(names: set<NameValue>, generated: seq<Category>): set<NameValue> {
    set c | c in generated && c.name.Some? && c.name.value in names :: c.name.value
  }

  /** Comparing the sizes of the two name sets decides `NamesPreserved`. */
  lemma FoundNamesDecide(existing: seq<Category>, generated: seq<Category>)
    ensures var names := ExistingNames(existing);
      |FoundNames(names, generated)| == |names| <==> NamesPreserved(existing, generated)
  {
    var names := ExistingNames(existing);
    var found := FoundNames(names, generated);
    SubsetOfSameSize(found, names);
    if NamesPreserved(existing, generated) {
      forall x | x in names
        ensures x in found
      {
        var e :| e in existing && e.name.Some? && e.name.value == x;
        var g :| g in generated && g.name == e.name;
      }
    }
    if found == names {
      forall e | e in existing && e.name.Some?
        ensures exists g :: g in generated && g.name == e.name
      {
        assert e.name.value in found;
        var g :| g in generated && g.name.Some? && g.name.value == e.name.value;
      }
    }
  }

  /** A subset as large as its superset is the superset. */
  lemma SubsetOfSameSize<T>(a: set<T>, b: set<T>)
    requires a <= b
    ensures |a| == |b| <==> a == b
  {
    assert b == a + (b - a);
    assert a * (b - a) == {};
    assert |b| == |a| + |b - a|;
    if |a| == |b| {
      assert b - a == {};
    }
  }

  /** Every list of categories preserves itself. */
  lemma VerifyReflexive(existing: seq<Category>)
    ensures Verify(existing, existing)
  {
  }

  /** With no existing categories, or none with a name key, verification succeeds whatever was
      generated. */
  lemma VerifyVacuous(existing: seq<Category>, generated: seq<Category>)
    requires forall e :: e in existing ==> e.name.None?
    ensures Verify(existing, generated)
  {
  }

  /** The values of the name keys of a list of categories, an absent key as None. */
  function NameKeys(cs: seq<Category>): set<Option<NameValue>> {
    set c | c in cs :: c.name
  }

  /** The verdict depends on the generated list only through the set of its name keys: it is
      blind to order, duplicates and every field but the name. */
  lemma VerifyOnlyNames(existing: seq<Category>, g1: seq<Category>, g2: seq<Category>)
    requires NameKeys(g1) == NameKeys(g2)
    ensures Verify(existing, g1) == Verify(existing, g2)
  {
    if Verify(existing, g1) {
      forall e | e in existing && e.name.Some?
        ensures exists g :: g in g2 && g.name == e.name
      {
        var g :| g in g1 && g.name == e.name;
        assert g.name in NameKeys(g1);
        assert g.name in NameKeys(g2);
        var g' :| g' in g2 && g'.name == g.name;
      }
    }
    if Verify(existing, g2) {
      forall e | e in existing && e.name.Some?
        ensures exists g :: g in g1 && g.name == e.name
      {
        var g :| g in g2 && g.name == e.name;
        assert g.name in NameKeys(g2);
        assert g.name in NameKeys(g1);
        var g' :| g' in g1 && g'.name == g.name;
      }
    }
  }

  /** `[ec.get("category_name") for ec in existing_categories]`. */
  function NameList(cs: seq<Category>): (names: seq<NameValue>)
    ensures |names| == |cs|
    ensures forall i :: 0 <= i < |cs| ==> names[i] == NameOf(cs[i])
  {
    if |cs| == 0 then [] else [NameOf(cs[0])] + NameList(cs[1..])
  }

  /** A name is in the name list exactly when some category carries it. */
  lemma NameListMembership(cs: seq<Category>)
    ensures forall n :: n in NameList(cs) <==> exists e :: e in cs && NameOf(e) == n
  {
    var names := NameList(cs);
    forall n | n in names
      ensures exists e :: e in cs && NameOf(e) == n
    {
      var i :| 0 <= i < |names| && names[i] == n;
      assert cs[i] in cs;
    }
    forall n | exists e :: e in cs && NameOf(e) == n
      ensures n in names
    {
      var e :| e in cs && NameOf(e) == n;
      var i :| 0 <= i < |cs| && cs[i] == e;
      assert names[i] == n;
    }
  }

  /** `a` is `b` with some elements left out, the rest kept in order. */
  ghost predicate IsSubsequence<T>(a: seq<T>, b: seq<T>)
    decreases |b|
  {
    && |a| <= |b|
    && (|a| == 0 || (a[0] == b[0] && IsSubsequence(a[1..], b[1..])) || IsSubsequence(a, b[1..]))
  }

  /** The list comprehension of the repair: the generated categories whose name (an absent key
      reading as None) is none of `names`, in their original order with their multiplicities. */
  function Newcomers(names: seq<NameValue>, generated: seq<Category>): (r: seq<Category>)
    ensures IsSubsequence(r, generated)
    ensures forall c :: multiset(r)[c] == if NameOf(c) in names then 0 else multiset(generated)[c]
    decreases |generated|
  {
    if |generated| == 0 then
      []
    else
      var g := generated[0];
      var tail := Newcomers(names, generated[1..]);
      assert generated == [g] + generated[1..];
      assert multiset(generated) == multiset{g} + multiset(generated[1..]);
      if NameOf(g) in names then
        tail
      else
        assert ([g] + tail)[1..] == tail;
        [g] + tail
  }

  /** The repair: the existing categories, unchanged and in order, then the generated categories
      whose name matches no existing name. A generated category that collides by name with an
      existing one is discarded, so the existing version wins. */
  function Repair(existing: seq<Category>, generated: seq<Category>): (r: seq<Category>)
    ensures |existing| <= |r| && r[..|existing|] == existing
    ensures IsSubsequence(r[|existing|..], generated)
    ensures forall c :: multiset(r[|existing|..])[c] ==
                        if exists e :: e in existing && NameOf(e) == NameOf(c) then 0 else multiset(generated)[c]
    ensures Verify(existing, r)
  {
    var names := NameList(existing);
    var added := Newcomers(names, generated);
    assert (existing + added)[|existing|..] == added;
    NameListMembership(existing);
    existing + added
  }

  /** No category appended by the repair shares a name with an existing category; in
      particular, when some existing category is unnamed (or named null), every unnamed
      generated category is dropped. */
  lemma RepairAddsOnlyNewNames(existing: seq<Category>, generated: seq<Category>)
    ensures forall c, e :: c in Repair(existing, generated)[|existing|..] && e in existing ==>
      NameOf(c) != NameOf(e)
  {
    var r := Repair(existing, generated);
    forall c, e | c in r[|existing|..] && e in existing
      ensures NameOf(c) != NameOf(e)
    {
      assert multiset(r[|existing|..])[c] > 0;
    }
  }

  /** The repair is needed only when verification fails, and after it verification holds. */
  function Preserve(existing: seq<Category>, f: Form): (r: Form)
    ensures r.others == f.others
    ensures Verify(existing, CategoriesOf(r))
    ensures Verify(existing, CategoriesOf(f)) ==> r == f
    ensures !Verify(existing, CategoriesOf(f)) ==> r.categories == Some(Repair(existing, CategoriesOf(f)))
  {
    if |existing| > 0 && !Verify(existing, CategoriesOf(f)) then
      f.(categories := Some(Repair(existing, CategoriesOf(f))))
    else
      f
  }

  /** Preserving twice changes nothing more than preserving once. */
  lemma PreserveIdempotent(existing: seq<Category>, f: Form)
    ensures Preserve(existing, Preserve(existing, f)) == Preserve(existing, f)
  {
  }

  /** The existing categories `generate_form` preserves: the "categories" list of the current
      form when it is a truthy object, or a non-empty string that decodes to an object; empty
      otherwise (a decoding failure is caught and only noted in the prompt). */
  function ExistingCategories(current: FormValue, parse: string -> Result<FormDoc>): (r: seq<Category>)
    ensures !Truthy(current) ==> r == []
    ensures current.FormObjectValue? ==> r == CategoriesOf(current.form)
    ensures current.OtherValue? ==> r == []
    ensures current.FormText? && r != [] ==> parse(current.text).Ok? && parse(current.text).value.FormObject?
    ensures current.FormText? && current.text != "" && parse(current.text).Ok? && parse(current.text).value.FormObject? ==>
      r == CategoriesOf(parse(current.text).value.form)
  {
    match current
    case NoForm => []
    case FormText(s) =>
      if s == "" then []
      else (
        match parse(s)
        case Ok(FormObject(f)) => CategoriesOf(f)
        case _ => []
      )
    case FormObjectValue(f) => CategoriesOf(f)
    case OtherValue(_) => []
  }

  /** Two repair scenarios: with no name in common the existing category comes
      first and the new one follows; a generated category named like an existing one is
      dropped by the repair. A name collision also makes verification pass, so in
      `generate_form` the model's edited version is kept, not repaired. */
  lemma RepairExamples()
    ensures
      var personal := Category(Some(TextName("Personal Info")), "Q1");
      var academic := Category(Some(TextName("Academic Info")), "Q3");
      var edited := Category(Some(TextName("Personal Info")), "Q2");
      && !Verify([personal], [academic])
      && Repair([personal], [academic]) == [personal, academic]
      && Repair([personal], [edited]) == [personal]
      && Preserve([personal], Form(Some([edited]), map[])) == Form(Some([edited]), map[])
  {
    var personal := Category(Some(TextName("Personal Info")), "Q1");
    var academic := Category(Some(TextName("Academic Info")), "Q3");
    var edited := Category(Some(TextName("Personal Info")), "Q2");
    assert NameList([personal]) == [TextName("Personal Info")];
    assert Newcomers([TextName("Personal Info")], [academic]) == [academic];
    assert Newcomers([TextName("Personal Info")], [edited]) == [];
    assert edited in [edited];
  }

  /** When the model reuses only some of the existing names, verification fails and the repair
      returns the existing categories alone: every generated category, edited versions of the
      existing ones included, is dropped because it shares a name with an existing category. */
  lemma PartialReuseDropsEdits(existing: seq<Category>, generated: seq<Category>, others: map<string, string>)
    requires forall g :: g in generated ==> exists e :: e in existing && NameOf(e) == NameOf(g)
    requires exists e :: e in existing && e.name.Some? && forall g :: g in generated ==> g.name != e.name
    ensures !Verify(existing, generated)
    ensures Preserve(existing, Form(Some(generated), others)) == Form(Some(existing), others)
  {
    var e :| e in existing && e.name.Some? && forall g :: g in generated ==> g.name != e.name;
    MissingNameFails(existing, generated, e);
    RepairDropsNamesakes(existing, generated);
    PreserveRepairs(existing, generated, others);
  }

  /** A failed verification replaces the generated categories by their repair. */
  lemma PreserveRepairs(existing: seq<Category>, generated: seq<Category>, others: map<string, string>)
    requires !Verify(existing, generated)
    ensures Preserve(existing, Form(Some(generated), others)) == Form(Some(Repair(existing, generated)), others)
  {
  }

  /** An existing name that no generated category carries makes verification fail. */
  lemma MissingNameFails(existing: seq<Category>, generated: seq<Category>, e: Category)
    requires e in existing && e.name.Some?
    requires forall g :: g in generated ==> g.name != e.name
    ensures !Verify(existing, generated)
  {
  }

  /** When every generated category shares its name with an existing one, the repair adds
      nothing to the existing categories. */
  lemma RepairDropsNamesakes(existing: seq<Category>, generated: seq<Category>)
    requires forall g :: g in generated ==> exists e :: e in existing && NameOf(e) == NameOf(g)
    ensures Repair(existing, generated) == existing
  {
    var r := Repair(existing, generated);
    var added := r[|existing|..];
    forall c
      ensures multiset(added)[c] == 0
    {
      if c in generated {
        var e :| e in existing && NameOf(e) == NameOf(c);
      } else {
        assert multiset(generated)[c] == 0;
      }
    }
    assert multiset(added) == multiset{};
    assert |added| == |multiset(added)| == 0;
    assert added == [];
  }
}

=== FILE: generation.dfy ===
/** The form generation engine (`generate_form`): the deterministic parts around the model
    call. Those are the context description handed to the model (conversation history and
    humanised context keys), decoding of the reply, preservation of the existing categories,
    and wrapping of every failure into one error message. */
module Generation {
  import opened Common
  import opened Text
  import opened Extraction
  import opened Forms
  import opened History
  import opened Dialogue

  const ErrorPrefix := "Error generating form: "
  const NoContentMessage := "No content returned from AI model."

  /** `Exception(f"Error generating form: {str(e)}")`: the one failure `generate_form` raises,
      carrying the cause; the cause can always be read back from the message. */
  function GenerationError(cause: string): (msg: string)
    ensures |msg| == |ErrorPrefix| + |cause|
    ensures msg[..|ErrorPrefix|] == ErrorPrefix && msg[|ErrorPrefix|..] == cause
  {
    ErrorPrefix + cause
  }

  /** The message starts with the generation-error prefix. */
  predicate IsGenerationError(msg: string) {
    |msg| >= |ErrorPrefix| && msg[..|ErrorPrefix|] == ErrorPrefix
  }

  /** Two failures with the same message had the same cause. */
  lemma GenerationErrorInjective(c1: string, c2: string)
    requires GenerationError(c1) == GenerationError(c2)
    ensures c1 == c2
  {
    assert c1 == GenerationError(c1)[|ErrorPrefix|..];
  }

  /** The message of the AttributeError raised when `result.get` is called on a decoded value
      that is not an object. */
  function NoGetMessage(typeName: string): string {
    "'" + typeName + "' object has no attribute 'get'"
  }

  /** `generate_form`, given how the model call ended and the JSON decoder. On success the
      result is the decoded document, with the existing categories preserved when it is an
      object; every failure is one `GenerationError` carrying its cause. */
  function GenerateForm(current: FormValue, outcome: ModelOutcome, parse: string -> Result<FormDoc>): (r: Result<FormDoc>)
    ensures outcome.Raised? ==> r == Err(GenerationError(outcome.message))
    ensures outcome == Returned("") ==> r == Err(GenerationError(NoContentMessage))
    ensures r.Err? ==> IsGenerationError(r.message)
    ensures outcome.Returned? && outcome.text != "" && parse(ExtractJson(outcome.text)).Err? ==>
      r == Err(GenerationError(parse(ExtractJson(outcome.text)).message))
    ensures outcome.Returned? && outcome.text != "" && parse(ExtractJson(outcome.text)).Ok? ==>
      parse(ExtractJson(outcome.text)).value.NonObject? ==>
      var name := parse(ExtractJson(outcome.text)).value.typeName;
      r == if |ExistingCategories(current, parse)| > 0 then Err(GenerationError(NoGetMessage(name))) else Ok(NonObject(name))
    ensures r.Ok? ==> outcome.Returned? && parse(ExtractJson(outcome.text)).Ok?
    ensures r.Ok? && r.value.FormObject? ==> Verify(ExistingCategories(current, parse), CategoriesOf(r.value.form))
  {
    var existing := ExistingCategories(current, parse);
    match outcome
    case Raised(m) => Err(GenerationError(m))
    case Returned(text) =>
      if text == "" then
        Err(GenerationError(NoContentMessage))
      else (
        match parse(ExtractJson(text))
        case Err(m) => Err(GenerationError(m))
        case Ok(NonObject(typeName)) =>
          if |existing| > 0 then Err(GenerationError(NoGetMessage(typeName))) else Ok(NonObject(typeName))
        case Ok(FormObject(f)) => Ok(FormObject(Preserve(existing, f)))
      )
  }

  /** A successful generation returns the decoded reply, changed only in its categories and only
      when verification failed, in which case they are the repaired list. */
  lemma GenerateFormKeepsReply(current: FormValue, text: string, parse: string -> Result<FormDoc>, f: Form)
    requires text != "" && parse(ExtractJson(text)) == Ok(FormObject(f))
    ensures var existing := ExistingCategories(current, parse);
      var r := GenerateForm(current, Returned(text), parse);
      && r.Ok? && r.value.FormObject? && r.value.form.others == f.others
      && (Verify(existing, CategoriesOf(f)) ==> r.value.form == f)
      && (!Verify(existing, CategoriesOf(f)) ==> CategoriesOf(r.value.form) == Repair(existing, CategoriesOf(f)))
  {
  }

  /** `key.replace('_', ' ')`. */
  function ReplaceUnderscores(s: string): string {
    seq(|s|, i requires 0 <= i < |s| => if s[i] == '_' then ' ' else s[i])
  }

  /** `s.capitalize()`: the first character upper-cased, the rest lower-cased. */
  function Capitalize(s: string): string {
    if |s| == 0 then "" else [UpperChar(s[0])] + Lower(s[1..])
  }

  /** The humanised form of a context key: `key.replace('_', ' ').capitalize()`. */
  function Humanize(key: string): (h: string)
    ensures |h| == |key|
  {
    Capitalize(ReplaceUnderscores(key))
  }

  /** Character by character, a humanised key has a space for each underscore, its first other
      character upper-cased and every other one lower-cased. */
  lemma HumanizeSpec(key: string)
    ensures |Humanize(key)| == |key|
    ensures forall i :: 0 <= i < |key| ==>
      Humanize(key)[i] == (if key[i] == '_' then ' ' else if i == 0 then UpperChar(key[i]) else LowerChar(key[i]))
  {
    var h := Humanize(key);
    if |key| > 0 {
      var s := ReplaceUnderscores(key);
      assert h == [UpperChar(s[0])] + Lower(s[1..]);
      forall i | 0 < i < |key|
        ensures h[i] == (if key[i] == '_' then ' ' else LowerChar(key[i]))
      {
        assert h[i] == Lower(s[1..])[i - 1] == LowerChar(s[i]);
      }
    }
  }

  /** Humanising is idempotent, and a humanised key has no underscore left. */
  lemma HumanizeIdempotent(key: string)
    ensures Humanize(Humanize(key)) == Humanize(key)
    ensures forall i :: 0 <= i < |Humanize(key)| ==> Humanize(key)[i] != '_'
  {
    var h := Humanize(key);
    HumanizeSpec(key);
    HumanizeSpec(h);
    forall i | 0 <= i < |h|
      ensures Humanize(h)[i] == h[i]
    {
      if i == 0 {
        if key[i] != '_' {
          assert UpperChar(UpperChar(key[i])) == UpperChar(key[i]);
        }
      } else {
        if key[i] != '_' {
          assert LowerChar(LowerChar(key[i])) == LowerChar(key[i]);
        }
      }
    }
  }

  /** The context of a `/generate` request: a plain string, or a mapping whose entries are
      kept in insertion order with each value already rendered by `str`. */
  datatype Context = TextContext(text: string) | MappingContext(pairs: seq<(string, string)>)

  /** The `Key: value` lines of a mapping context. */
  function MappingLines(pairs: seq<(string, string)>): string
    decreases |pairs|
  {
    if |pairs| == 0 then "" else Humanize(pairs[0].0) + ": " + pairs[0].1 + "\n" + MappingLines(pairs[1..])
  }

  /** The lines of a longer mapping are the lines of its parts, in order. */
  lemma {:induction false} MappingLinesAppend(a: seq<(string, string)>, b: seq<(string, string)>)
    ensures MappingLines(a + b) == MappingLines(a) + MappingLines(b)
    decreases |a|
  {
    if |a| == 0 {
      assert a + b == b;
    } else {
      assert (a + b)[1..] == a[1..] + b;
      MappingLinesAppend(a[1..], b);
    }
  }

  /** How the context appears in the description. */
  function ContextText(ctx: Context): string {
    match ctx
    case TextContext(s) => s + "\n"
    case MappingContext(pairs) => MappingLines(pairs)
  }

  /** The context description built before the existing form is serialised into it: a header,
      the conversation's generation transcript when the id is supplied and known, then the
      context. */
  function ContextDescription(store: Store, id: Option<string>, ctx: Context): string {
    if Supplied(id) && id.value in store then
      "Form context:\n" + "Conversation history:\n" + RenderGeneration(store[id.value]) + ContextText(ctx)
    else
      "Form context:\n" + ContextText(ctx)
  }

  /** Recording a generated form never changes what a later `/generate` call describes to the
      model: snapshots render as nothing. */
  lemma SnapshotKeepsDescription(store: Store, key: string, d: FormDoc, id: Option<string>, ctx: Context)
    requires key in store
    ensures ContextDescription(store[key := store[key] + [Snapshot(d)]], id, ctx) == ContextDescription(store, id, ctx)
  {
    SnapshotInvisible(store[key], d);
  }
}

=== FILE: history.dfy ===
/** The conversation store and the transcripts rendered from it. The store maps a conversation
    id to the list of entries recorded for it; an entry is either one exchange recorded by
    `/chat` or one generated form recorded by `/generate`. */
module History {
  import opened Common
  import opened Forms

  /** A history entry. `Exchange` is `{user, assistant}` plus `form_state` when the request
      carried a truthy current form; `Snapshot` is `{form_generated: true, form_data}`. */
  datatype Entry =
    | Exchange(user: string, assistant: string, formState: Option<FormValue>)
    | Snapshot(formData: FormDoc)

  /** The process-wide `conversation_store`. */
  type Store = map<string, seq<Entry>>

  /** The entries of a conversation, empty when the id is unknown. */
  function Entries(store: Store, id: string): seq<Entry> {
    if id in store then store[id] else []
  }

  /** The lines one entry contributes to the dialogue transcript: a `User:` line when it has a
      `user` key and an `Assistant:` line when it has an `assistant` key. */
  function DialogueLines(e: Entry): string {
    match e
    case Exchange(u, a, _) => "User: " + u + "\n" + "Assistant: " + a + "\n"
    case Snapshot(_) => ""
  }

  /** The saved-form marker of the generation transcript. */
  const SavedMarker := "Previous form state was saved\n"

  /** The lines one entry contributes to the generation transcript: as in the dialogue, plus the
      marker for an entry with a `form_state` key (never the saved form itself). */
  function GenerationLines(e: Entry): string {
    match e
    case Exchange(u, a, fs) => DialogueLines(e) + (if fs.Some? then SavedMarker else "")
    case Snapshot(_) => ""
  }

  /** The dialogue transcript of a list of entries. */
  function RenderDialogue(h: seq<Entry>): string
    decreases |h|
  {
    if |h| == 0 then "" else DialogueLines(h[0]) + RenderDialogue(h[1..])
  }

  /** The generation transcript of a list of entries. */
  function RenderGeneration(h: seq<Entry>): string
    decreases |h|
  {
    if |h| == 0 then "" else GenerationLines(h[0]) + RenderGeneration(h[1..])
  }

  /** Rendering a dialogue transcript distributes over concatenation of histories. */
  lemma {:induction false} RenderDialogueAppend(a: seq<Entry>, b: seq<Entry>)
    ensures RenderDialogue(a + b) == RenderDialogue(a) + RenderDialogue(b)
    decreases |a|
  {
    if |a| == 0 {
      assert a + b == b;
    } else {
      assert (a + b)[1..] == a[1..] + b;
      RenderDialogueAppend(a[1..], b);
    }
  }

  /** Rendering a generation transcript distributes over concatenation of histories. */
  lemma {:induction false} RenderGenerationAppend(a: seq<Entry>, b: seq<Entry>)
    ensures RenderGeneration(a + b) == RenderGeneration(a) + RenderGeneration(b)
    decreases |a|
  {
    if |a| == 0 {
      assert a + b == b;
    } else {
      assert (a + b)[1..] == a[1..] + b;
      RenderGenerationAppend(a[1..], b);
    }
  }

  /** Entries recorded by `/generate` contribute nothing to either transcript. */
  lemma SnapshotInvisible(h: seq<Entry>, d: FormDoc)
    ensures RenderDialogue(h + [Snapshot(d)]) == RenderDialogue(h)
    ensures RenderGeneration(h + [Snapshot(d)]) == RenderGeneration(h)
  {
    RenderDialogueAppend(h, [Snapshot(d)]);
    RenderGenerationAppend(h, [Snapshot(d)]);
  }

  /** The two transcripts differ only by markers: without `form_state` entries they agree. */
  lemma {:induction false} TranscriptsAgreeWithoutFormState(h: seq<Entry>)
    requires forall i :: 0 <= i < |h| && h[i].Exchange? ==> h[i].formState.None?
    ensures RenderGeneration(h) == RenderDialogue(h)
    decreases |h|
  {
    if |h| > 0 {
      TranscriptsAgreeWithoutFormState(h[1..]);
    }
  }

  /** The conversation part of the dialogue prompt (`chat_with_ai`): the history, when there is
      one, then the new utterance as a last `User:` line. */
  function DialogueContext(history: seq<Entry>, utterance: string): (r: string)
    ensures r == RenderDialogue(history) + "User: " + utterance + "\n"
  {
    if |history| > 0 then
      RenderDialogue(history) + "User: " + utterance + "\n"
    else
      "User: " + utterance + "\n"
  }
}

=== FILE: intent_filter.dfy ===
/** The intent filter (`validate_university_context`): a keyword test on the lower-cased
    prompt, run before any call to the language model. */
module IntentFilter {
  import opened Text

  /** Topics rejected unless a university keyword also occurs; the spelling "ecomerce" is the
      source's own, so the correctly spelled "ecommerce" does not match it. */
  const Disallowed: seq<string> := [
    "bomb", "weapon", "illegal", "hack", "pornography", "gambling",
    "drugs", "steal", "terrorism", "attack", "ecomerce"
  ]

  /** Keywords that mark a prompt as belonging to the university domain. */
  const University: seq<string> := [
    "university", "algeria", "usthb", "college", "campus", "student", "faculty", "professor",
    "course", "degree", "academic", "enrollment", "registration",
    "admission", "education", "form", "document", "application"
  ]

  /** Some keyword of `keywords` occurs in `text` (Python's `any(k in text for k in keywords)`). */
  function AnyOccurs(keywords: seq<string>, text: string): (b: bool)
    ensures b <==> exists k :: k in keywords && IsSubstring(k, text)
    decreases |keywords|
  {
    if |keywords| == 0 then
      false
    else
      assert forall k :: k in keywords <==> k == keywords[0] || k in keywords[1..];
      Contains(text, keywords[0]) || AnyOccurs(keywords[1..], text)
  }

  /** Some disallowed keyword occurs in `text`. */
  predicate Flagged(text: string) {
    AnyOccurs(Disallowed, text)
  }

  /** Some university keyword occurs in `text`. */
  predicate Academic(text: string) {
    AnyOccurs(University, text)
  }

  /** `validate_university_context`: the decision on a prompt. */
  predicate Validate(prompt: string) {
    var low := Lower(prompt);
    if Flagged(low) then Academic(low) else true
  }

  /** A prompt is accepted exactly when no disallowed keyword occurs in its lower-cased form,
      or some university keyword does. */
  lemma ValidateSpec(prompt: string)
    ensures Validate(prompt) <==>
      || !(exists k :: k in Disallowed && IsSubstring(k, Lower(prompt)))
      || (exists k :: k in University && IsSubstring(k, Lower(prompt)))
  {
  }

  /** The decision depends only on the lower-cased prompt, so the filter is case-insensitive. */
  lemma ValidateCaseInsensitive(p: string, q: string)
    requires Lower(p) == Lower(q)
    ensures Validate(p) == Validate(q)
    ensures Validate(p) == Validate(Lower(p))
    ensures Validate(p) == Validate(Upper(p))
  {
    LowerAbsorbs(p);
  }

  /** A prompt in which no disallowed keyword occurs is always accepted. */
  lemma ValidateAcceptsUnflagged(p: string)
    requires forall k :: k in Disallowed ==> !IsSubstring(k, Lower(p))
    ensures Validate(p)
  {
    ValidateSpec(p);
  }

  /** A prompt containing a university keyword is always accepted, whatever else it holds. */
  lemma ValidateAcceptsAcademic(p: string, k: string)
    requires k in University && IsSubstring(k, Lower(p))
    ensures Validate(p)
  {
    ValidateSpec(p);
  }

  /** A needle holding a character that the text lacks does not occur in the text. */
  lemma AbsentCharRulesOut(needle: string, hay: string, c: char)
    requires c in needle && c !in hay
    ensures !IsSubstring(needle, hay)
  {
    var j :| 0 <= j < |needle| && needle[j] == c;
    forall i | 0 <= i && i + |needle| <= |hay|
      ensures !OccursAt(needle, hay, i)
    {
      assert hay[i..i + |needle|][j] == hay[i + j];
    }
  }

  /** No keyword of a list occurs in a text when each is ruled out on its own. */
  lemma NoneOccur(keywords: seq<string>, hay: string)
    requires forall i :: 0 <= i < |keywords| ==> !IsSubstring(keywords[i], hay)
    ensures !(exists k :: k in keywords && IsSubstring(k, hay))
  {
  }

  /** No university keyword occurs in a text that lacks one character of each keyword. */
  lemma NoUniversityKeyword(hay: string, missing: seq<char>)
    requires |missing| == |University|
    requires forall i :: 0 <= i < |University| ==> missing[i] in University[i] && missing[i] !in hay
    ensures !(exists k :: k in University && IsSubstring(k, hay))
  {
    forall i | 0 <= i < |University|
      ensures !IsSubstring(University[i], hay)
    {
      AbsentCharRulesOut(University[i], hay, missing[i]);
    }
    NoneOccur(University, hay);
  }

  /** A bare disallowed topic is rejected. */
  lemma ValidateRejectsBomb()
    ensures !Validate("how to build a bomb")
  {
    var bomb := "how to build a bomb";
    LowerOfLowerCaseText(bomb);
    DisallowedOccurs(bomb, 0, 15);
    NoUniversityKeyword(bomb, "ngsccefrcecersefcp");
  }

  /** A disallowed word next to a university keyword passes, and so does an ordinary question. */
  lemma ValidateAcceptsUniversityPrompts()
    ensures Validate("bomb calorimetry experiment for chemistry admission form")
    ensures Validate("what courses does the faculty offer")
  {
    OccursInLower("admission", "bomb calorimetry experiment for chemistry admission form", 42);
    OccursInLower("faculty", "what courses does the faculty offer", 22);
  }

  /** A lower-case keyword found in a text is still there once the text is lower-cased. */
  lemma OccursInLower(needle: string, hay: string, at: nat)
    requires Lower(needle) == needle && OccursAt(needle, hay, at)
    ensures IsSubstring(needle, Lower(hay))
  {
    var low := Lower(hay);
    forall k | 0 <= k < |needle|
      ensures low[at + k] == needle[k]
    {
      assert hay[at + k] == hay[at..at + |needle|][k];
    }
    assert OccursAt(needle, low, at);
  }

  /** The keyword list is literal: the misspelt "ecomerce" is rejected ... */
  lemma ValidateRejectsEcomerce()
    ensures !Validate("an ecomerce shop")
  {
    var shop := "an ecomerce shop";
    LowerOfLowerCaseText(shop);
    DisallowedOccurs(shop, 10, 3);
    NoUniversityKeywordInShop();
  }

  lemma NoUniversityKeywordInShop()
    ensures !(exists k :: k in University && IsSubstring(k, "an ecomerce shop"))
  {
    NoUniversityKeyword("an ecomerce shop", "ululutffuddlgddfdl");
  }

  /** The example prompts are already lower case. */
  lemma LowerOfLowerCaseText(s: string)
    requires s in {"how to build a bomb", "an ecomerce shop", "ecommerce"}
    ensures Lower(s) == s
  {
  }

  /** A disallowed keyword found at a known position flags the text. */
  lemma DisallowedOccurs(hay: string, i: nat, at: nat)
    requires i < |Disallowed| && OccursAt(Disallowed[i], hay, at)
    ensures exists k :: k in Disallowed && IsSubstring(k, hay)
  {
    assert IsSubstring(Disallowed[i], hay);
    assert Disallowed[i] in Disallowed;
  }

  /** ... while the usual spelling "ecommerce" passes the filter. */
  lemma ValidateAcceptsEcommerce()
    ensures Validate("ecommerce")
  {
    var ecommerce := "ecommerce";
    LowerOfLowerCaseText(ecommerce);
    var missing := "bwihpgdsta";
    forall i | 0 <= i < |Disallowed| - 1
      ensures !IsSubstring(Disallowed[i], ecommerce)
    {
      AbsentCharRulesOut(Disallowed[i], ecommerce, missing[i]);
    }
    forall i
      ensures !OccursAt(Disallowed[10], ecommerce, i)
    {
      if 0 <= i && i + 8 <= 9 {
        if i == 0 {
          assert ecommerce[i..i + 8][4] != "ecomerce"[4];
        } else {
          assert ecommerce[i..i + 8][0] != "ecomerce"[0];
        }
      }
    }
    NoneOccur(Disallowed, ecommerce);
  }
}

=== FILE: routes.dfy ===
/** The `/chat` and `/generate` handlers as transformers of the conversation store, each
    returning the new store together with the kind of response sent back. HTTP wiring,
    JSON encoding and the status codes themselves are not modelled; the response tags name them. */
module Routes {
  import opened Common
  import opened IntentFilter
  import opened Forms
  import opened History
  import opened Dialogue
  import opened Generation

  const MissingPromptError := "Missing prompt"
  const OffTopicQuestion :=
    "I need to focus on creating university-related forms. Could you please provide a prompt related to educational or academic forms?"
  const MissingContextError := "Missing form context"
  const OffTopicContextError := "Please provide a context related to educational or academic forms."
  const OffTopicSuggestion := "Try focusing on university registration, application, or other educational forms."
  /** `str(KeyError('question'))`, raised when the model's JSON object has no "question". */
  const MissingQuestionError := "'question'"

  /** A `/chat` request body: `prompt` is None when the body is missing or lacks the key. */
  datatype ChatRequest = ChatRequest(prompt: Option<string>, conversationId: Option<string>, currentForm: FormValue)

  /** The response kinds of `/chat`: 400, 200 with the redirect question, 200 with the model's
      reply, and 500. */
  datatype ChatResponse =
    | ChatBadRequest(error: string)
    | ChatRedirect(question: string, conversationId: string)
    | ChatAnswer(reply: ChatReply)
    | ChatServerError(error: string)

  datatype ChatStep = ChatStep(store: Store, response: ChatResponse)

  /** The history entry `/chat` records: `form_state` is kept only for a truthy current form. */
  function ExchangeEntry(prompt: string, question: string, current: FormValue): (e: Entry)
    ensures e.Exchange? && e.user == prompt && e.assistant == question
    ensures e.formState.Some? <==> Truthy(current)
    ensures e.formState.Some? ==> e.formState.value == current
  {
    Exchange(prompt, question, if Truthy(current) then Some(current) else None)
  }

  /** The `/chat` handler. A missing or rejected prompt leaves the store untouched. Otherwise
      the resolved id gets an (initially empty) list, and exactly one exchange is appended to it,
      unless the model's reply lacks a question, which fails after the list was created. */
  function Chat(store: Store, req: ChatRequest, outcome: ModelOutcome, parse: string -> Result<ReplyDoc>, seed: IdSeed): (r: ChatStep)
    ensures req.prompt.None? ==> r == ChatStep(store, ChatBadRequest(MissingPromptError))
    ensures req.prompt.Some? && !Validate(req.prompt.value) ==>
      r == ChatStep(store, ChatRedirect(OffTopicQuestion, ResolveId(req.conversationId, seed)))
    ensures r.store != store ==> req.prompt.Some? && Validate(req.prompt.value)
    ensures store.Keys <= r.store.Keys <= store.Keys + {ResolveId(req.conversationId, seed)}
    ensures forall k :: k in store && k != ResolveId(req.conversationId, seed) ==> r.store[k] == store[k]
  {
    match req.prompt
    case None => ChatStep(store, ChatBadRequest(MissingPromptError))
    case Some(prompt) =>
      if !Validate(prompt) then
        ChatStep(store, ChatRedirect(OffTopicQuestion, ResolveId(req.conversationId, seed)))
      else
        Converse(store, prompt, req, outcome, parse, seed)
  }

  /** The accepted-prompt part of `/chat`: ask the dialogue engine, create the id's list, then
      record the exchange when the reply has a question. */
  function Converse(store: Store, prompt: string, req: ChatRequest, outcome: ModelOutcome, parse: string -> Result<ReplyDoc>, seed: IdSeed): (r: ChatStep)
    ensures var id := ResolveId(req.conversationId, seed);
      && store.Keys <= r.store.Keys <= store.Keys + {id}
      && (forall k :: k in store && k != id ==> r.store[k] == store[k])
  {
    var reply := ChatWithAi(req.conversationId, outcome, parse, seed);
    var id := reply.conversationId;
    var started := store[id := Entries(store, id)];
    match reply.question
    case None => ChatStep(started, ChatServerError(MissingQuestionError))
    case Some(q) =>
      ChatStep(started[id := started[id] + [ExchangeEntry(prompt, q, req.currentForm)]], ChatAnswer(reply))
  }

  /** An accepted prompt that the model answers appends exactly one exchange, carrying the
      prompt and the reply's question, to the resolved id's list (created empty when the id was
      unknown); every other conversation is unchanged. */
  lemma ChatAppendsOneExchange(store: Store, req: ChatRequest, outcome: ModelOutcome, parse: string -> Result<ReplyDoc>, seed: IdSeed)
    requires req.prompt.Some? && Validate(req.prompt.value)
    requires ChatWithAi(req.conversationId, outcome, parse, seed).question.Some?
    ensures var r := Chat(store, req, outcome, parse, seed);
      var id := ResolveId(req.conversationId, seed);
      var q := ChatWithAi(req.conversationId, outcome, parse, seed).question.value;
      && r.response == ChatAnswer(ChatReply(Some(q), id))
      && r.store.Keys == store.Keys + {id}
      && r.store[id] == Entries(store, id) + [ExchangeEntry(req.prompt.value, q, req.currentForm)]
      && forall k :: k in store && k != id ==> r.store[k] == store[k]
  {
  }

  /** The fallback paths of the dialogue engine still record an exchange: when the model call
      raises, the fixed failure question is answered and stored. */
  lemma ChatRecordsFallback(store: Store, req: ChatRequest, m: string, parse: string -> Result<ReplyDoc>, seed: IdSeed)
    requires req.prompt.Some? && Validate(req.prompt.value)
    ensures var r := Chat(store, req, Raised(m), parse, seed);
      var id := ResolveId(req.conversationId, seed);
      && r.response == ChatAnswer(ChatReply(Some(FailureQuestion), id))
      && r.store[id] == Entries(store, id) + [ExchangeEntry(req.prompt.value, FailureQuestion, req.currentForm)]
  {
  }

  /** A model reply without a question fails the request, yet the id's list has been created. */
  lemma ChatMissingQuestion(store: Store, req: ChatRequest, outcome: ModelOutcome, parse: string -> Result<ReplyDoc>, seed: IdSeed)
    requires req.prompt.Some? && Validate(req.prompt.value)
    requires ChatWithAi(req.conversationId, outcome, parse, seed).question.None?
    ensures var r := Chat(store, req, outcome, parse, seed);
      var id := ResolveId(req.conversationId, seed);
      && r.response == ChatServerError(MissingQuestionError)
      && r.store == store[id := Entries(store, id)]
  {
  }

  /** Two answered turns on a new, supplied conversation id leave exactly those two exchanges,
      in order, under that id. */
  lemma ChatTwoTurns(store: Store, id: string, p1: string, p2: string, f1: FormValue, f2: FormValue,
                     o1: ModelOutcome, o2: ModelOutcome, parse: string -> Result<ReplyDoc>, seed: IdSeed)
    requires id != "" && id !in store
    requires Validate(p1) && Validate(p2)
    requires ChatWithAi(Some(id), o1, parse, seed).question.Some?
    requires ChatWithAi(Some(id), o2, parse, seed).question.Some?
    ensures var s1 := Chat(store, ChatRequest(Some(p1), Some(id), f1), o1, parse, seed).store;
      var s2 := Chat(s1, ChatRequest(Some(p2), Some(id), f2), o2, parse, seed).store;
      var q1 := ChatWithAi(Some(id), o1, parse, seed).question.value;
      var q2 := ChatWithAi(Some(id), o2, parse, seed).question.value;
      s2[id] == [ExchangeEntry(p1, q1, f1), ExchangeEntry(p2, q2, f2)]
  {
    var s1 := Chat(store, ChatRequest(Some(p1), Some(id), f1), o1, parse, seed).store;
    ChatAppendsOneExchange(store, ChatRequest(Some(p1), Some(id), f1), o1, parse, seed);
    ChatAppendsOneExchange(s1, ChatRequest(Some(p2), Some(id), f2), o2, parse, seed);
  }

  /** A `/generate` request body: `context` is None when the body is missing or lacks the key. */
  datatype GenerateRequest = GenerateRequest(context: Option<Context>, conversationId: Option<string>, currentForm: FormValue)

  /** The response kinds of `/generate`: 400 (with a suggestion for an off-topic context), 200
      with the generated document, and 500. */
  datatype GenerateResponse =
    | GenerateBadRequest(error: string, suggestion: Option<string>)
    | GenerateOk(doc: FormDoc)
    | GenerateServerError(error: string)

  datatype GenerateStep = GenerateStep(store: Store, response: GenerateResponse)

  /** The `/generate` handler. Only a plain-string context goes through the intent filter. A
      generated document is recorded as a snapshot only in a conversation that already exists;
      no conversation is ever created. */
  function Generate(store: Store, req: GenerateRequest, outcome: ModelOutcome, parse: string -> Result<FormDoc>): (r: GenerateStep)
    ensures r.store.Keys == store.Keys
    ensures req.context.None? ==> r == GenerateStep(store, GenerateBadRequest(MissingContextError, None))
    ensures req.context.Some? && req.context.value.TextContext? && !Validate(req.context.value.text) ==>
      r == GenerateStep(store, GenerateBadRequest(OffTopicContextError, Some(OffTopicSuggestion)))
    ensures req.context.Some? && (req.context.value.TextContext? ==> Validate(req.context.value.text)) ==>
      && (GenerateForm(req.currentForm, outcome, parse).Ok? ==> r.response == GenerateOk(GenerateForm(req.currentForm, outcome, parse).value))
      && (GenerateForm(req.currentForm, outcome, parse).Err? ==>
            r == GenerateStep(store, GenerateServerError(GenerateForm(req.currentForm, outcome, parse).message)))
    ensures r.response.GenerateServerError? ==> r.store == store && IsGenerationError(r.response.error)
    ensures r.store != store ==>
      && Supplied(req.conversationId) && req.conversationId.value in store && r.response.GenerateOk?
      && r.store == store[req.conversationId.value := store[req.conversationId.value] + [Snapshot(r.response.doc)]]
  {
    match req.context
    case None => GenerateStep(store, GenerateBadRequest(MissingContextError, None))
    case Some(ctx) =>
      if ctx.TextContext? && !Validate(ctx.text) then
        GenerateStep(store, GenerateBadRequest(OffTopicContextError, Some(OffTopicSuggestion)))
      else (
        match GenerateForm(req.currentForm, outcome, parse)
        case Err(m) => GenerateStep(store, GenerateServerError(m))
        case Ok(doc) =>
          var id := req.conversationId;
          if Supplied(id) && id.value in store then
            GenerateStep(store[id.value := store[id.value] + [Snapshot(doc)]], GenerateOk(doc))
          else
            GenerateStep(store, GenerateOk(doc))
      )
  }

  /** A successful generation on a known conversation appends exactly one snapshot of the
      returned document to it. */
  lemma GenerateRecordsSnapshot(store: Store, req: GenerateRequest, outcome: ModelOutcome, parse: string -> Result<FormDoc>)
    requires req.context.Some? && (req.context.value.TextContext? ==> Validate(req.context.value.text))
    requires GenerateForm(req.currentForm, outcome, parse).Ok?
    requires Supplied(req.conversationId) && req.conversationId.value in store
    ensures var r := Generate(store, req, outcome, parse);
      var id := req.conversationId.value;
      var doc := GenerateForm(req.currentForm, outcome, parse).value;
      && r.response == GenerateOk(doc)
      && r.store[id] == store[id] + [Snapshot(doc)]
  {
  }

  /** A mapping context is never rejected by the intent filter, whatever words it holds. */
  lemma MappingContextBypassesFilter(store: Store, pairs: seq<(string, string)>, id: Option<string>, current: FormValue,
                                     outcome: ModelOutcome, parse: string -> Result<FormDoc>)
    ensures !Generate(store, GenerateRequest(Some(MappingContext(pairs)), id, current), outcome, parse).response.GenerateBadRequest?
  {
  }

  /** What `/generate` records never changes the context description of any later call. */
  lemma GenerateKeepsDescriptions(store: Store, req: GenerateRequest, outcome: ModelOutcome, parse: string -> Result<FormDoc>,
                                  id: Option<string>, ctx: Context)
    ensures ContextDescription(Generate(store, req, outcome, parse).store, id, ctx) == ContextDescription(store, id, ctx)
  {
    var r := Generate(store, req, outcome, parse);
    if r.store != store {
      SnapshotKeepsDescription(store, req.conversationId.value, r.response.doc, id, ctx);
    }
  }
}

=== FILE: text.dfy ===
/** The Python string built-ins the service relies on: `str.isspace`, `str.strip`, `lower`
    (ASCII case mapping only), the `in` substring test and `str(n)` for a natural number.
    `Strip`, `Contains` and `NatToString` carry specifications independent of how they are
    computed; `IsSpace`, `Lower` and `Upper` are plain definitions, and `Upper` serves only to
    state that lower-casing absorbs upper-casing. */
module Text {

  /** Python's `str.isspace` for a single code point. */
  predicate IsSpace(c: char) {
    || ('\t' <= c <= '\r')
    || ('\U{1C}' <= c <= ' ')
    || c == '\U{85}' || c == '\U{A0}' || c == '\U{1680}'
    || ('\U{2000}' <= c <= '\U{200A}')
    || c == '\U{2028}' || c == '\U{2029}' || c == '\U{202F}' || c == '\U{205F}' || c == '\U{3000}'
  }

  /** The number of whitespace characters at the front of `s`. */
  function LeadingSpaces(s: string): (n: nat)
    ensures n <= |s|
    ensures forall k :: 0 <= k < n ==> IsSpace(s[k])
    ensures n == |s| || !IsSpace(s[n])
    decreases |s|
  {
    if |s| == 0 || !IsSpace(s[0]) then 0 else 1 + LeadingSpaces(s[1..])
  }

  /** The number of whitespace characters at the back of `s`. */
  function TrailingSpaces(s: string): (n: nat)
    ensures n <= |s|
    ensures forall k :: |s| - n <= k < |s| ==> IsSpace(s[k])
    ensures n == |s| || !IsSpace(s[|s| - 1 - n])
    decreases |s|
  {
    if |s| == 0 || !IsSpace(s[|s| - 1]) then 0 else 1 + TrailingSpaces(s[..|s| - 1])
  }

  /** True when `s` neither starts nor ends with whitespace. */
  predicate Trimmed(s: string) {
    |s| == 0 || (!IsSpace(s[0]) && !IsSpace(s[|s| - 1]))
  }

  /** Python's `s.strip()`: the slice of `s` left after removing whitespace at both ends.
      The three clauses determine the result: it starts where the leading whitespace ends,
      only whitespace follows it, and it is itself trimmed. */
  function Strip(s: string): (r: string)
    ensures LeadingSpaces(s) + |r| <= |s|
    ensures r == s[LeadingSpaces(s)..LeadingSpaces(s) + |r|]
    ensures forall k :: LeadingSpaces(s) + |r| <= k < |s| ==> IsSpace(s[k])
    ensures Trimmed(r)
  {
    var a := LeadingSpaces(s);
    var rest := s[a..];
    var n := TrailingSpaces(rest);
    assert |rest| == n || !IsSpace(rest[|rest| - 1 - n]);
    rest[..|rest| - n]
  }

  /** Stripping a trimmed string changes nothing. */
  lemma StripTrimmed(s: string)
    requires Trimmed(s)
    ensures Strip(s) == s
  {
    assert LeadingSpaces(s) == 0;
    assert TrailingSpaces(s) == 0;
  }

  /** `strip()` is idempotent. */
  lemma StripIdempotent(s: string)
    ensures Strip(Strip(s)) == Strip(s)
  {
    StripTrimmed(Strip(s));
  }

  /** ASCII lower-casing of one character. */
  function LowerChar(c: char): char {
    if 'A' <= c <= 'Z' then (c as int + 32) as char else c
  }

  /** ASCII upper-casing of one character. */
  function UpperChar(c: char): char {
    if 'a' <= c <= 'z' then (c as int - 32) as char else c
  }

  /** Python's `s.lower()` restricted to ASCII letters. */
  function Lower(s: string): (r: string)
    ensures |r| == |s|
    ensures forall i :: 0 <= i < |s| ==> r[i] == LowerChar(s[i])
  {
    seq(|s|, i requires 0 <= i < |s| => LowerChar(s[i]))
  }

  /** Python's `s.upper()` restricted to ASCII letters. */
  function Upper(s: string): (r: string)
    ensures |r| == |s|
    ensures forall i :: 0 <= i < |s| ==> r[i] == UpperChar(s[i])
  {
    seq(|s|, i requires 0 <= i < |s| => UpperChar(s[i]))
  }

  /** Lower-casing is idempotent and forgets any earlier upper-casing. */
  lemma LowerAbsorbs(s: string)
    ensures Lower(Lower(s)) == Lower(s)
    ensures Lower(Upper(s)) == Lower(s)
  {
    assert forall i :: 0 <= i < |s| ==> LowerChar(LowerChar(s[i])) == LowerChar(s[i]);
    assert forall i :: 0 <= i < |s| ==> LowerChar(UpperChar(s[i])) == LowerChar(s[i]);
  }

  /** `needle` occurs in `hay` starting at index `i`. */
  ghost predicate OccursAt(needle: string, hay: string, i: int) {
    0 <= i && i + |needle| <= |hay| && hay[i..i + |needle|] == needle
  }

  /** Python's `needle in hay` for strings, as a definition. */
  ghost predicate IsSubstring(needle: string, hay: string) {
    exists i :: OccursAt(needle, hay, i)
  }

  /** The substring test computed by scanning `hay` from the front. */
  function Contains(hay: string, needle: string): (b: bool)
    ensures b <==> IsSubstring(needle, hay)
    decreases |hay|
  {
    if |needle| > |hay| then
      false
    else if hay[..|needle|] == needle then
      assert OccursAt(needle, hay, 0);
      true
    else
      var b := Contains(hay[1..], needle);
      ShiftOccurrence(needle, hay);
      b
  }

  /** An occurrence in `hay[1..]` is an occurrence in `hay` one place later, and when `hay`
      does not start with `needle` every occurrence in `hay` arises that way. */
  lemma ShiftOccurrence(needle: string, hay: string)
    requires |needle| <= |hay| && hay[..|needle|] != needle
    ensures IsSubstring(needle, hay[1..]) <==> IsSubstring(needle, hay)
  {
    if IsSubstring(needle, hay[1..]) {
      var i :| OccursAt(needle, hay[1..], i);
      assert hay[1..][i..i + |needle|] == hay[i + 1..i + 1 + |needle|];
      assert OccursAt(needle, hay, i + 1);
    }
    if IsSubstring(needle, hay) {
      var i :| OccursAt(needle, hay, i);
      assert i != 0;
      assert hay[1..][i - 1..i - 1 + |needle|] == hay[i..i + |needle|];
      assert OccursAt(needle, hay[1..], i - 1);
    }
  }

  predicate IsDigit(c: char) {
    '0' <= c <= '9'
  }

  predicate AllDigits(s: string) {
    forall i :: 0 <= i < |s| ==> IsDigit(s[i])
  }

  function DigitChar(d: nat): (c: char)
    requires d < 10
    ensures IsDigit(c)
  {
    ('0' as int + d) as char
  }

  function DigitValue(c: char): nat
    requires IsDigit(c)
  {
    c as int - '0' as int
  }

  /** Python's `str(n)` for a natural number: decimal digits, most significant first. */
  function NatToString(n: nat): (r: string)
    ensures |r| > 0 && AllDigits(r)
    decreases n
  {
    if n < 10 then [DigitChar(n)] else NatToString(n / 10) + [DigitChar(n % 10)]
  }

  /** The number a string of decimal digits denotes (Python's `int(s)` on such a string). */
  function DecimalValue(s: string): nat
    requires AllDigits(s)
    decreases |s|
  {
    if |s| == 0 then 0 else DecimalValue(s[..|s| - 1]) * 10 + DigitValue(s[|s| - 1])
  }

  /** `int(str(n)) == n`. */
  lemma {:induction false} DecimalRoundTrip(n: nat)
    ensures DecimalValue(NatToString(n)) == n
    decreases n
  {
    var s := NatToString(n);
    if n >= 10 {
      DecimalRoundTrip(n / 10);
      assert s[..|s| - 1] == NatToString(n / 10);
    }
  }

  /** A number from 10000 to 99999 is written with exactly five digits. */
  lemma FiveDigits(n: nat)
    requires 10000 <= n <= 99999
    ensures |NatToString(n)| == 5
  {
    assert |NatToString(n / 10000)| == 1;
    assert |NatToString(n / 1000)| == 2;
    assert |NatToString(n / 100)| == 3;
    assert |NatToString(n / 10)| == 4;
  }
}
